=== FILE: README.md ===
# Users-and-tasks CRUD service, modelled in Dafny

This project models the core of a small HTTP service that keeps users and their
tasks in a relational database. The service has four parts. The task service
creates, gets, lists, partially updates and deletes tasks. The user service
creates users with a hashed password and lists them. The `/users` router maps
exceptions to HTTP statuses. The migration environment derives a synchronous
database URL.

The database is a value `Db`. It holds the `users` and `tasks` tables as maps
from primary key to row, the next value of each id sequence, and a logical
clock that stands in for `now()`. `Valid(db)` states what the database
enforces:
- primary keys;
- the unique email;
- the column widths (name 50, email 100, password 100, task name 200) and
  the absence of NUL characters in text values;
- the NOT NULL owner of a task and its foreign key into `users`;
- `created_at <= updated_at <=` the clock.

Every write keeps `Valid`.

A `varchar(n)` column follows PostgreSQL's assignment rule. A longer value is
refused with a data error unless every character past the n-th is a space.
In that case the spaces are cut off and the value is stored. A NUL character
is refused in every text column. `Stored(s, n)` is the value the column
keeps, and unique-email comparisons and the rows read back use it.

Each service operation is a pure function. The writing operations return a
`Step`: the database afterwards, plus the returned value or the raised
exception. The read-only operations (`GetTask`, `SelectTasks`, `ListTasks`,
`GetUsers` and the routes over them) return a `Result`, the value or the
exception, since they leave the database as it was. Storage failures
are an explicit `Fault` parameter: the first SELECT fails, the COMMIT fails, or
the `refresh` after a successful COMMIT fails. The creates write before they
read, so a failing first SELECT does not affect them; "healthy" in the rows
below means no failure at the COMMIT or the refresh. In the last case the row stays
stored while the caller still gets an error, because the rollback comes after
the COMMIT. `hash_password` is a function parameter `hash` that is left
uninterpreted.

Modules follow the source files:
- `Models`: app/models/user.py and app/models/task.py, plus the commit primitives.
- `TaskSchemas`: app/schemas/task.py.
- `UserSchemas`: app/schemas/user.py.
- `TaskService`: app/services/task_service.py.
- `UserService`: app/services/user_service.py.
- `UserRouter`: app/routers/user.py.
- `MigrationEnv`: alembic/env.py.
- Helpers: `Results` (Option, Result, Field), `Strings` (find, replace-once, lower, contains), `Tables` (ascending key scan and the OFFSET/LIMIT window), `Errors` (exception kinds, statuses, faults).
- `Scenario`: one end-to-end session.

## Where the code departs from its evident intent

The model follows the code:
- `create_task` never sets `user_id`. The NOT NULL constraint therefore rejects every task it builds, and every call answers 500 "Failed to create task" (see Findings).
- The nested task route passes a `user_id=` keyword that `create_task` does not accept. The TypeError always ends in 500 (see Findings).
- `UserRead` extends `UserCreate`, so the stored password hash is part of every user response.
- An integrity error that is not a duplicate still answers 400 "Database constraint violation", not 500.
- The `create` route hashes the password, and `create_user` hashes it again (see Findings).
- `updated_at` uses `onupdate`, which fires only when an UPDATE is emitted. SQLAlchemy emits none when no column value changes. So an empty or no-op patch leaves the row, `updated_at` included, exactly as it was; any real change advances it.

## Model

| member | source | states |
|---|---|---|
| `Models.Stored` | app/models/task.py:14 | The value a `varchar(n)` keeps is a prefix of what was sent, at most n long. A value that fits is kept whole, and a longer one is cut to exactly n characters. |
| `Models.StoredLosesOnlySpaces` | app/models/user.py:10-12 | For an admitted value, the stored value fits the column, and padding it back with spaces gives the value sent. |
| `Models.InsertUser` | app/models/user.py:9-13 | An inserted user gets a fresh id and the given fields as the columns store them. A NUL in any value is a data error, checked first. A value the width refuses is a data error too. A taken email, compared as stored, is an integrity error, and nothing else is. The result is still valid. |
| `Models.InsertTask` | app/models/task.py:12-23 | The insert succeeds exactly when the owner is set and exists and the name and content are admitted. NUL, then width, then a NULL owner (NOT NULL integrity error) are reported in that order. Both timestamps are one fresh tick. |
| `Models.UpdateTaskRow` | app/models/task.py:14-23 | The update succeeds exactly when the new name is non-null and admitted and the content has no NUL. Id, owner and `created_at` are kept, and the name is stored as the column keeps it. `updated_at` advances exactly when the row changed; with no change the database is untouched. |
| `Models.DeleteTaskRow` | app/services/task_service.py:79-80 | Deleting removes exactly that id, keeps the users, and keeps the store valid. |
| `Tables.AscendingKeys` | app/services/task_service.py:42 | The scan yields exactly the keys in range that pass the filter, in strictly ascending order. |
| `Tables.Window` | app/services/task_service.py:42 | OFFSET/LIMIT returns at most `limit` rows, namely the rows from position `skip` on. Its length is fixed by `skip`, `limit` and the input length. |
| `Tables.AscendingWithin` | app/services/task_service.py:42 | A strictly ascending id list drawn from a key set is no longer than that set. |
| `Tables.WindowsConcatenate` | app/services/task_service.py:42 | Consecutive pages concatenate to the page of their combined size. |
| `TaskSchemas.MakeTaskCreate` | app/schemas/task.py:18-25 | A `TaskCreate` has a required name and a content that defaults to `None`. |
| `TaskSchemas.Dump` | app/schemas/task.py:28-30 | With `exclude_unset`, a field is dumped exactly when the caller set it. Without it, both fields are dumped and an unset one is `None`. |
| `TaskSchemas.EmptyUpdateDump` | app/schemas/task.py:28-30 | An empty update dumps to nothing with `exclude_unset`, and to two `None`s without it. |
| `TaskSchemas.ReadTask` | app/schemas/task.py:33-39 | `TaskRead` carries exactly id, owner, name, content and both timestamps. |
| `TaskSchemas.TaskOfRead` | app/schemas/task.py:33-39 | The row can be rebuilt from its `TaskRead`, so the projection drops nothing. |
| `UserSchemas.MakeUserCreate` | app/schemas/user.py:4-8 | Name, email and password are required. `is_active` defaults to true. |
| `UserSchemas.ReadUser` | app/schemas/user.py:11-15 | `UserRead` is the user's fields plus the id, and it includes the stored password hash. |
| `UserSchemas.UserOfRead` | app/schemas/user.py:11-12 | The user row can be rebuilt from its `UserRead`, so nothing is stripped. |
| `TaskService.CreateTask` | app/services/task_service.py:15-29 | As written, every call rolls back and answers 500 "Failed to create task", and the store is unchanged. |
| `TaskService.CreateTaskFor` | app/services/task_service.py:15-29 | Corrected create. It succeeds exactly when the store is healthy, the owner exists, and the name and content are admitted by their columns. The new task has the caller's owner, the name as stored, the content, a fresh id, and `created_at == updated_at`. Failures are 500 and leave the store unchanged unless only the refresh failed. When only the refresh fails, the caller gets 500 but the new task stays stored, exactly as a success would have stored it. |
| `TaskService.GetTask` | app/services/task_service.py:32-36 | A missing id is 404 "Task not found". Otherwise the stored task is returned unchanged. A failing query escapes as a database error. |
| `TaskService.Ordered` | app/services/task_service.py:42-44 | The unwindowed query result is strictly ascending by id. It holds only stored tasks that pass the owner filter, and it holds every such task. |
| `TaskService.RowsOfOwnedKeys` | app/services/task_service.py:42-44 | The rows fetched for an ascending scan of the owner's keys are ascending, stored and owned, and none of the owner's tasks is missed. |
| `TaskService.OrderedWithinStore` | app/services/task_service.py:42-44 | The filtered query never returns more rows than there are tasks. |
| `TaskService.SelectTasks` | app/services/task_service.py:41-47 | The query fails with a database error exactly on a connection failure or a negative OFFSET or LIMIT. On success it is the filtered ordered rows sliced at `[skip, skip+limit)`. |
| `TaskService.ListTasks` | app/services/task_service.py:39-53 | The call fails with 500 "Failed to list tasks" exactly on a query failure or a negative window. On success it is the filtered ordered rows sliced at `[skip, skip+limit)`: at most `limit` rows, ascending, each owned by the filter's user. |
| `TaskService.FirstPageIsComplete` | app/services/task_service.py:40-47 | With skip 0 and a limit of at least the task count, every task the filter admits is listed. |
| `TaskService.SetAttrsLastWriteWins` | app/services/task_service.py:60-61 | After the `setattr` loop, each attribute holds the value of the last item naming it, or keeps its value if no item names it. |
| `TaskService.DumpedPatchMerges` | app/services/task_service.py:58-61 | Assigning the `exclude_unset` dump is exactly the field-by-field merge. Set fields are written, an explicit `None` included; unset fields keep their value. |
| `TaskService.FullDumpClearsName` | app/schemas/task.py:28-30 | Without `exclude_unset`, an empty update would assign `None` to the name. |
| `TaskService.UpdateTask` | app/services/task_service.py:56-73 | A missing id is 404 with the store unchanged. The update succeeds exactly when the store is healthy, the patched name is non-null and admitted, and no set value has a NUL. Success writes the merged task and nothing else. A failing read escapes as a database error. Any other failure is 500 "Failed to update task" and leaves the store unchanged unless only the refresh failed. When only the refresh fails on an accepted patch, the patched row stays stored. |
| `TaskService.DeleteTask` | app/services/task_service.py:76-87 | A missing id is 404. Success removes exactly that id and leaves every other task unchanged. A commit failure is 500 "Failed to delete task" with the store unchanged. |
| `TaskService.GetAfterCreate` | app/services/task_service.py:15-36 | A task created for an owner is read back with the same owner and content, the name as stored, and equal timestamps. |
| `TaskService.PaddedNameIsCut` | app/models/task.py:14 | A name padded with spaces past 200 characters is accepted, not refused, and is stored cut to 200 characters. |
| `TaskService.GetAfterUpdate` | app/services/task_service.py:32-73 | After a successful update, `get_task` returns the patched row. |
| `TaskService.EmptyUpdateIsIdentity` | app/services/task_service.py:56-66 | An empty patch returns the stored task and changes nothing, `updated_at` included. |
| `TaskService.ContentOnlyKeepsName` | app/services/task_service.py:56-73 | A patch that sets only content succeeds exactly when the content has no NUL. On success it changes the content and keeps the name; otherwise the store is unchanged. |
| `TaskService.NullNameIsRefused` | app/services/task_service.py:56-73 | An explicit `None` name is written, the NOT NULL column refuses it, and the call answers 500 with the store unchanged. |
| `TaskService.GetAfterDelete` | app/services/task_service.py:76-80 | After a successful delete, `get_task` on that id is 404. |
| `UserService.CreateUser` | app/services/user_service.py:15-43 | Success stores exactly one new user with a fresh id. The password is `hash(input)` and the name and email are copied, each as its column stores it; the active flag is copied. It succeeds exactly when healthy, every value is admitted by its column, and the stored email is unused. A taken email raises the unique-violation integrity error with the store unchanged. Every error is a database error, re-raised. Every failure other than the refresh leaves the store unchanged. When only the refresh fails, the caller gets the error but the new user stays stored, exactly as a success would have stored it. |
| `UserService.GetUsers` | app/services/user_service.py:46-60 | The call lists every stored user exactly once and no other value. A failing query raises a database error. |
| `UserService.ListedOnce` | app/services/user_service.py:46-54 | The ascending scan of all user keys yields each stored user once. |
| `UserService.DuplicateEmailKeepsCount` | app/services/user_service.py:32-35 | A create whose email, as stored, is taken raises an integrity error, and the user count is unchanged. |
| `UserService.CreatedEmailsStayUnique` | app/models/user.py:11 | No two stored users share an email after any create. |
| `UserRouter.HandleCreateError` | app/routers/user.py:23-52 | An integrity error is 400. Its detail is the duplicate-email detail exactly when the lowered text contains "unique constraint" or "duplicate key", and "Database constraint violation" otherwise. A value error is 422 "Invalid input: " plus the message, with no rollback. Anything else is 500 with a fixed detail and a rollback. |
| `UserRouter.MarkerCaseIgnored` | app/routers/user.py:28 | Either marker, in any letter case, makes an integrity error a duplicate. |
| `UserRouter.LeadingMarkerDetected` | app/routers/user.py:28 | A text starting with "duplicate key" is classified as a duplicate. |
| `UserRouter.UniqueViolationIsDuplicate` | app/routers/user.py:28-32 | The database's unique-violation text is recognised as a duplicate. |
| `UserRouter.Create` | app/routers/user.py:16-52 | As written, it succeeds exactly when healthy, every value with the doubly hashed password is admitted, and the stored email is unused. Success stores and returns the user with the password `hash(hash(plaintext))` as stored, and the response includes that hash. A taken email answers 400 "A user with this email already exists" with the store unchanged. Every other failure answers 500 "An unexpected error occurred while creating the user". Every failure other than the refresh leaves the store unchanged. When only the refresh fails, the caller gets the error but the new user stays stored, exactly as a success would have stored it. |
| `UserRouter.CreateHashOnce` | app/routers/user.py:16-52 | Corrected create. It has the same success condition and error answers, with `hash(plaintext)` in place of the double hash, and that is what it stores. A failure leaves the store unchanged unless only the refresh failed. When only the refresh fails, the caller gets the error but the new user stays stored, exactly as a success would have stored it. |
| `UserRouter.DoubleHashCounterexample` | app/routers/user.py:20-21 | Hashing with `s => "h" + s`, the stored password is "hhp", not the hash of "p". |
| `UserRouter.ReadAll` | app/routers/user.py:54-64 | The call lists every user, projected, as many as are stored. Any failure is 500 "An error occurred while fetching users". |
| `UserRouter.GetUserTasks` | app/routers/user.py:69-78 | The call lists the tasks owned by the path user, in the default window (skip 0, limit 100), ascending. The service's 500 is replaced by "An error occurred while fetching tasks". |
| `UserRouter.CreateUserTask` | app/routers/user.py:81-90 | As written, the call never binds and always answers 500 "An error occurred while creating the task" with the store unchanged. |
| `UserRouter.CreateUserTaskFixed` | app/routers/user.py:81-90 | Corrected route. It succeeds exactly when healthy, the path user exists, and the name and content are admitted. The stored task belongs to the path user, with `created_at == updated_at`. Every failure is 500 "An error occurred while creating the task" and leaves the store unchanged unless only the refresh failed. When only the refresh fails, the caller gets 500 but the new task stays stored, exactly as a success would have stored it. |
| `Strings.FindFrom` | alembic/env.py:40 | `str.find` yields the first occurrence at or after the start, or reports that none exists. |
| `Strings.ReplaceFirstAtStart` | alembic/env.py:39-40 | When the text starts with the pattern, replacing once rewrites exactly that prefix. |
| `Strings.LowerKeepsOccurrence` | app/routers/user.py:28 | An occurrence survives lower-casing both sides. |
| `MigrationEnv.ToSyncUrl` | alembic/env.py:35-42 | The `postgresql+asyncpg://` prefix becomes `postgresql://` and the rest is kept; the result is 8 characters shorter. Any other URL is unchanged. The result never starts with the async prefix. |
| `MigrationEnv.ToSyncUrlIdempotent` | alembic/env.py:35-42 | Converting twice equals converting once. |
| `MigrationEnv.GetUrl` | alembic/env.py:45-48 | The environment value wins when present, even if empty; otherwise the default is used. Either way the result is converted and is never an async URL. |
| `Scenario.UsersPhase` | app/routers/user.py:16-39 | On an empty store the first user is created; a second user with the same email gets 400, leaving one user and no tasks. |
| `Scenario.TasksPhase` | app/routers/user.py:81-90 | For an existing user: the route as written answers 500 and changes nothing; the corrected route stores the task, the listing is exactly that task, and after delete it is 404. |
| `Scenario.EndToEnd` | app/routers/user.py:16-90 | In one session: the user is created; a second user with the same email gets 400 and the count stays 1; the task route as written answers 500; the corrected route stores the task for the user; listing shows exactly that task; deleting it makes it 404. |

## Findings

| source | as written | input that shows it | evidently intended | confidence | as-written member | corrected member |
|---|---|---|---|---|---|---|
| app/services/task_service.py:15-17 | The task is built from `TaskCreate` only, which has no owner, so `user_id` is NULL and the NOT NULL column rejects every insert. | Any payload, e.g. `TaskCreate("T1", None)` on any store. | The owner given by the caller becomes `user_id`. | high; not executed | `TaskService.CreateTask` | `TaskService.CreateTaskFor` |
| app/routers/user.py:84 | `create_task(db, task, user_id=user_id)` passes a keyword that `create_task` does not declare, so every call raises TypeError and answers 500. | Any POST to `/users/1/tasks`. | A task created for the user in the path. | high; not executed | `UserRouter.CreateUserTask` | `UserRouter.CreateUserTaskFixed` |
| app/routers/user.py:20 | The router hashes the password and `create_user` hashes the result again. | Password "p" with hash `s => "h" + s` is stored as "hhp". | The hash of the password as sent. | medium; not executed | `UserRouter.DoubleHashCounterexample` | `UserRouter.CreateHashOnce` |

## Left out

- app/main.py: the startup migration run in a worker thread and the app wiring. This is I/O into an external migration engine.
- alembic/env.py:51-98: offline and online migration runs. This is engine, connection and Alembic-context plumbing.
- app/routers/users.py: a second `/users` router that is never mounted.
- app/routers/task.py: its handlers pass straight through to the task service, which is modelled. FastAPI's generic 500 for a database error escaping `get_task`, `update_task` or `delete_task` unhandled is not modelled; the model stops at that raised error. The 204 status of the delete route is routing metadata.
- app/utilities/create_utility.py: modelled as a plain field copy.
- `hash_password`: its source is not part of this model. It is an uninterpreted total function, so the router's 422 path for a `ValueError` is modelled in the classifier but no modelled call raises one.
- Async/await, session lifecycle, logging, SQL generation and concurrency between requests are not modelled. Wall-clock timestamps are a logical clock.
- Id sequences: the model draws an id only for a committed insert. PostgreSQL may also consume a sequence value on a failed insert. The model only promises fresh ids, not their exact values.
- `Integer` ids are unbounded here, and 32-bit exhaustion of the id sequences is not modelled. So an id can never be out of range for its column, though in the source a request id can be. The lines below name what this changes for requests.
- TaskService.GetTask: an id below -2^31 or at or above 2^31 does not fit the 32-bit parameter. The source then raises a database error; the model answers 404. `UpdateTask` and `DeleteTask` inherit this through `get_task`.
- TaskService.ListTasks: a `user_id` outside the 32-bit range, or a skip or limit beyond the range of its parameter, makes the source's query fail with 500. The model answers with the filtered rows (an empty list for such a user).
- UserRouter.GetUserTasks: for a path `user_id` outside the 32-bit range the source answers 500 "An error occurred while fetching tasks"; the model answers an empty list.
- `Strings.Lower`: folds only ASCII letters, where Python's `str.lower` also folds other Unicode letters.
- Exception texts are the database's message alone. SQLAlchemy also appends the SQL statement and its parameters to `str(e)`, which the model omits.
- Storage faults are one injected failure point per call, chosen by the caller. Constraint violations are reported at the flush, before the COMMIT, in the order: value too long, NOT NULL, unique email, foreign key.
- `UserService.GetUsers`: the source leaves the order to the database. The model lists users by ascending id, and its contract promises only that each stored user appears exactly once.

=== FILE: errors.dfy ===
/** The exceptions that cross the layers of the service, the HTTP status
    codes they end in, and the storage failures a single call can meet. */
module Errors {

  const BadRequest := 400
  const NotFound := 404
  const UnprocessableEntity := 422
  const InternalServerError := 500

  /** The exception kinds the handlers tell apart. `DatabaseError` is every
      SQLAlchemy error that is not an `IntegrityError` (a data error such as an
      over-long value, a lost connection, a rejected OFFSET). */
  datatype Exception =
    | IntegrityError(message: string)
    | DatabaseError(message: string)
    | ValueError(message: string)
    | TypeError(message: string)
    | HttpException(status: int, detail: string)

  /** Where, if anywhere, the database connection fails during one call:
      on the first SELECT (a call that writes before it reads never meets
      this one), on the COMMIT, or on the re-read (`refresh`) that follows a
      successful COMMIT. */
  datatype Fault = Healthy | FailsOnRead | FailsOnCommit | FailsOnRefresh

  // Messages the PostgreSQL driver puts into the exceptions the model raises
  // (the wording of the database engine, abbreviated).

  /** The marker the driver's unique-violation text opens with. */
  const DuplicateKeyMarker := "duplicate key"
  const UniqueViolationMessage := DuplicateKeyMarker + " value violates unique constraint \"ix_users_email\""
  const NotNullViolationMessage := "null value in column violates not-null constraint"
  const ForeignKeyViolationMessage := "insert or update on table \"tasks\" violates foreign key constraint"
  const NulCharacterMessage := "invalid byte sequence for encoding \"UTF8\": 0x00"
  const ValueTooLongMessage := "value too long for type character varying"
  const NegativeWindowMessage := "OFFSET and LIMIT must not be negative"
  const ConnectionLostMessage := "connection was closed in the middle of operation"
}

=== FILE: migration_env.dfy ===
/** The database URL the migration environment connects with: an async
    driver URL is turned into its synchronous form, and the process
    environment overrides the application default. */
module MigrationEnv {
  import opened Results
  import opened Strings

  /** The URL scheme, the driver marker of the async driver, and the
      separator; the async prefix is the synchronous one with the marker
      inserted after the scheme. */
  const Scheme: string := "postgresql"
  const AsyncDriver: string := "+asyncpg"
  const AsyncPrefix: string := Scheme + AsyncDriver + "://"
  const SyncPrefix: string := Scheme + "://"

  /** `_to_sync_url(url)`. */
  function ToSyncUrl(url: string): (r: string)
    ensures StartsWith(url, AsyncPrefix) ==> r == SyncPrefix + url[|AsyncPrefix|..]
    ensures !StartsWith(url, AsyncPrefix) ==> r == url
    ensures !StartsWith(r, AsyncPrefix)
    ensures |r| == if StartsWith(url, AsyncPrefix) then |url| - 8 else |url|
  {
    if StartsWith(url, AsyncPrefix) then
      ReplaceFirstAtStart(url, AsyncPrefix, SyncPrefix);
      var r := ReplaceFirst(url, AsyncPrefix, SyncPrefix);
      assert r[10] != AsyncPrefix[10] by {
        assert r[10] == SyncPrefix[10] == ':';
        assert AsyncPrefix[10] == '+';
      }
      r
    else
      url
  }

  /** Converting twice is converting once. */
  lemma ToSyncUrlIdempotent(url: string)
    ensures ToSyncUrl(ToSyncUrl(url)) == ToSyncUrl(url)
  {
  }

  /** `get_url()`: `os.getenv("DATABASE_URL", DATABASE_URL)` then the
      conversion. A set but empty variable still wins over the default. */
  function GetUrl(env: Option<string>, appDefault: string): (r: string)
    ensures env.Some? ==> r == ToSyncUrl(env.value)
    ensures env.None? ==> r == ToSyncUrl(appDefault)
    ensures !StartsWith(r, AsyncPrefix)
  {
    var url := match env
      case Some(v) => v
      case None => appDefault;
    ToSyncUrl(url)
  }
}

=== FILE: models.dfy ===
/** The `users` and `tasks` tables: their rows, the column constraints the
    database enforces on them, and the INSERT / UPDATE / DELETE followed by
    COMMIT through which the services write. Identifiers come from per-table
    sequences; timestamps are ticks of a logical clock that advances on every
    committed write to `tasks`. */
module Models {
  import opened Results
  import opened Errors

  /** Column widths: `String(50)`, `String(100)`, `String(100)`, `String(200)`. */
  const UserNameMax := 50
  const UserEmailMax := 100
  const UserPasswordMax := 100
  const TaskNameMax := 200

  /** A row of `users`. */
  datatype User = User(id: int, name: string, email: string, password: string, isActive: bool)

  /** A row of `tasks`; `content` is the one nullable column. */
  datatype Task = Task(id: int, userId: int, name: string, content: Option<string>, createdAt: nat, updatedAt: nat)

  /** The database: both tables keyed by primary key, the next value of each
      id sequence, and the logical time of the last write to `tasks`. */
  datatype Db = Db(users: map<int, User>, tasks: map<int, Task>, nextUserId: int, nextTaskId: int, clock: nat)

  const EmptyDb := Db(map[], map[], 1, 1, 0)

  /** What a call leaves behind: the database afterwards and the value
      returned or the exception raised. */
  datatype Step<T> = Step(db: Db, result: Result<T, Exception>)

  /** A successful COMMIT: the new database and the row as it was written. */
  datatype Committed<T> = Committed(db: Db, row: T)

  /** `User(**data)` before the database assigns its id. */
  datatype NewUser = NewUser(name: string, email: string, password: string, isActive: bool)

  /** `Task(**data)` before the database assigns id and timestamps; `userId`
      stays `None` when the data carried no owner. */
  datatype NewTask = NewTask(userId: Option<int>, name: string, content: Option<string>)

  /** PostgreSQL refuses the NUL character in every text value, whatever the
      column type; the refusal comes as the parameters are read, before any
      column is looked at. */
  predicate NulFree(s: string)
  {
    forall i :: 0 <= i < |s| ==> s[i] != '\0'
  }

  /** Assignment to `varchar(n)`: a longer value is accepted only when every
      character past the n-th is a space; anything else is a data error. */
  predicate Admits(s: string, n: nat)
  {
    NulFree(s) && (|s| <= n || forall i :: n <= i < |s| ==> s[i] == ' ')
  }

  /** What a value held by `varchar(n)` can be. */
  predicate Fits(s: string, n: nat)
  {
    NulFree(s) && |s| <= n
  }

  /** The value `varchar(n)` keeps: the excess spaces are cut off. */
  function Stored(s: string, n: nat): (r: string)
    ensures |r| <= n && |r| <= |s|
    ensures r == s[..|r|]
    ensures |s| <= n ==> r == s
    ensures n < |s| ==> |r| == n
  {
    if |s| <= n then s else s[..n]
  }

  /** `n` spaces. */
  function Spaces(n: nat): (r: string)
    ensures |r| == n && forall i :: 0 <= i < n ==> r[i] == ' '
  {
    seq(n, _ => ' ')
  }

  /** An admitted value is stored within the width, and cutting it loses
      only spaces: padding the stored value back gives the value sent. */
  lemma StoredLosesOnlySpaces(s: string, n: nat)
    requires Admits(s, n)
    ensures Fits(Stored(s, n), n)
    ensures s == Stored(s, n) + Spaces(|s| - |Stored(s, n)|)
  {
    var r := Stored(s, n);
    assert forall i :: 0 <= i < |r| ==> r[i] == s[i];
    var pad := Spaces(|s| - |r|);
    assert forall i :: |r| <= i < |s| ==> s[i] == pad[i - |r|];
  }

  /** Every value of a user survives the column types of `users`. */
  predicate UserFits(name: string, email: string, password: string)
  {
    Admits(name, UserNameMax) && Admits(email, UserEmailMax) && Admits(password, UserPasswordMax)
  }

  /** No value of a user carries NUL. */
  predicate UserNulFree(name: string, email: string, password: string)
  {
    NulFree(name) && NulFree(email) && NulFree(password)
  }

  /** The values of a task survive `String(200)` and `Text`. */
  predicate TaskFits(name: string, content: Option<string>)
  {
    Admits(name, TaskNameMax) && (content.Some? ==> NulFree(content.value))
  }

  /** No value of a task carries NUL. */
  predicate TaskNulFree(name: Option<string>, content: Option<string>)
  {
    (name.Some? ==> NulFree(name.value)) && (content.Some? ==> NulFree(content.value))
  }

  predicate EmailTaken(users: map<int, User>, email: string)
  {
    exists id :: id in users && users[id].email == email
  }

  /** `after` is `before` plus one new user under a fresh id, holding the
      given values as the columns store them. */
  ghost predicate UserAdded(before: map<int, User>, after: map<int, User>,
                      name: string, email: string, password: string, isActive: bool)
  {
    exists u: User ::
      && u.id !in before
      && after == before[u.id := u]
      && u == User(u.id, Stored(name, UserNameMax), Stored(email, UserEmailMax), Stored(password, UserPasswordMax), isActive)
  }

  /** `after` is `before` plus one new task of `owner` under a fresh id, with
      the given name as stored and content, created and updated at once. */
  ghost predicate TaskAdded(before: map<int, Task>, after: map<int, Task>, owner: int, name: string, content: Option<string>)
  {
    exists t: Task ::
      && t.id !in before
      && after == before[t.id := t]
      && t.userId == owner
      && t.name == Stored(name, TaskNameMax)
      && t.content == content
      && t.createdAt == t.updatedAt
  }

  /** The unique index on `users.email`. */
  predicate EmailsUnique(users: map<int, User>)
  {
    forall a, b :: a in users && b in users && a != b ==> users[a].email != users[b].email
  }

  predicate UserRowOk(db: Db, id: int)
    requires id in db.users
  {
    var u := db.users[id];
    && 1 <= id < db.nextUserId
    && u.id == id
    && Fits(u.name, UserNameMax)
    && Fits(u.email, UserEmailMax)
    && Fits(u.password, UserPasswordMax)
  }

  /** Primary key, NOT NULL foreign key into `users`, name width, and the
      timestamps: set no later than the last write, never updated before created. */
  predicate TaskRowOk(db: Db, id: int)
    requires id in db.tasks
  {
    var t := db.tasks[id];
    && 1 <= id < db.nextTaskId
    && t.id == id
    && t.userId in db.users
    && Fits(t.name, TaskNameMax)
    && (t.content.Some? ==> NulFree(t.content.value))
    && t.createdAt <= t.updatedAt <= db.clock
  }

  /** Everything the database guarantees about its committed state. */
  predicate Valid(db: Db)
  {
    && 1 <= db.nextUserId
    && 1 <= db.nextTaskId
    && (forall id :: id in db.users ==> UserRowOk(db, id))
    && EmailsUnique(db.users)
    && (forall id :: id in db.tasks ==> TaskRowOk(db, id))
  }

  /** The update touched the row: `name` or `content` differs from what is stored. */
  predicate NetChange(t: Task, name: Option<string>, content: Option<string>)
  {
    name != Some(t.name) || content != t.content
  }

  /** INSERT INTO users then COMMIT. A NUL anywhere, then an over-long value,
      is a data error; a taken email (compared as stored) an integrity error.
      All are raised by the flush, before the COMMIT. */
  function InsertUser(db: Db, row: NewUser, commitFails: bool): (r: Result<Committed<User>, Exception>)
    requires Valid(db)
    ensures r.Ok? <==>
              && !commitFails
              && UserFits(row.name, row.email, row.password)
              && !EmailTaken(db.users, Stored(row.email, UserEmailMax))
    ensures !UserNulFree(row.name, row.email, row.password) ==> r == Err(DatabaseError(NulCharacterMessage))
    ensures UserNulFree(row.name, row.email, row.password) && !UserFits(row.name, row.email, row.password) ==>
              r == Err(DatabaseError(ValueTooLongMessage))
    ensures UserFits(row.name, row.email, row.password) && EmailTaken(db.users, Stored(row.email, UserEmailMax)) ==>
              r == Err(IntegrityError(UniqueViolationMessage))
    ensures r.Err? && r.error.IntegrityError? ==>
              UserFits(row.name, row.email, row.password) && EmailTaken(db.users, Stored(row.email, UserEmailMax))
    ensures r.Ok? ==> var u := r.value.row;
              && u == User(u.id, Stored(row.name, UserNameMax), Stored(row.email, UserEmailMax),
                           Stored(row.password, UserPasswordMax), row.isActive)
              && u.id !in db.users
              && r.value.db.users == db.users[u.id := u]
              && r.value.db.tasks == db.tasks
              && r.value.db.clock == db.clock
              && Valid(r.value.db)
  {
    if !UserNulFree(row.name, row.email, row.password) then Err(DatabaseError(NulCharacterMessage))
    else if !UserFits(row.name, row.email, row.password) then Err(DatabaseError(ValueTooLongMessage))
    else if EmailTaken(db.users, Stored(row.email, UserEmailMax)) then Err(IntegrityError(UniqueViolationMessage))
    else if commitFails then Err(DatabaseError(ConnectionLostMessage))
    else
      StoredLosesOnlySpaces(row.name, UserNameMax);
      StoredLosesOnlySpaces(row.email, UserEmailMax);
      StoredLosesOnlySpaces(row.password, UserPasswordMax);
      var u := User(db.nextUserId, Stored(row.name, UserNameMax), Stored(row.email, UserEmailMax),
                    Stored(row.password, UserPasswordMax), row.isActive);
      var db' := db.(users := db.users[u.id := u], nextUserId := db.nextUserId + 1);
      assert forall id :: id in db'.tasks ==> TaskRowOk(db', id) by {
        forall id | id in db'.tasks ensures TaskRowOk(db', id) {
          assert TaskRowOk(db, id);
        }
      }
      assert forall id :: id in db'.users ==> UserRowOk(db', id) by {
        forall id | id in db'.users ensures UserRowOk(db', id) {
          if id != u.id {
            assert UserRowOk(db, id);
          }
        }
      }
      Ok(Committed(db', u))
  }

  /** INSERT INTO tasks then COMMIT. Both timestamps take the next clock tick.
      The checks come in the order the database makes them: NUL, width,
      NOT NULL owner, foreign key, then the COMMIT itself. */
  function InsertTask(db: Db, row: NewTask, commitFails: bool): (r: Result<Committed<Task>, Exception>)
    requires Valid(db)
    ensures r.Ok? <==>
              && !commitFails
              && row.userId.Some?
              && row.userId.value in db.users
              && TaskFits(row.name, row.content)
    ensures !TaskNulFree(Some(row.name), row.content) ==> r == Err(DatabaseError(NulCharacterMessage))
    ensures TaskNulFree(Some(row.name), row.content) && !TaskFits(row.name, row.content) ==>
              r == Err(DatabaseError(ValueTooLongMessage))
    ensures TaskFits(row.name, row.content) && row.userId.None? ==> r == Err(IntegrityError(NotNullViolationMessage))
    ensures r.Ok? ==> var t := r.value.row;
              && t == Task(t.id, row.userId.value, Stored(row.name, TaskNameMax), row.content, t.createdAt, t.updatedAt)
              && t.createdAt == t.updatedAt == r.value.db.clock > db.clock
              && t.id !in db.tasks
              && r.value.db.tasks == db.tasks[t.id := t]
              && r.value.db.users == db.users
              && Valid(r.value.db)
  {
    if !TaskNulFree(Some(row.name), row.content) then Err(DatabaseError(NulCharacterMessage))
    else if !TaskFits(row.name, row.content) then Err(DatabaseError(ValueTooLongMessage))
    else if row.userId.None? then Err(IntegrityError(NotNullViolationMessage))
    else if row.userId.value !in db.users then Err(IntegrityError(ForeignKeyViolationMessage))
    else if commitFails then Err(DatabaseError(ConnectionLostMessage))
    else
      StoredLosesOnlySpaces(row.name, TaskNameMax);
      var now := db.clock + 1;
      var t := Task(db.nextTaskId, row.userId.value, Stored(row.name, TaskNameMax), row.content, now, now);
      var db' := db.(tasks := db.tasks[t.id := t], nextTaskId := db.nextTaskId + 1, clock := now);
      assert forall id :: id in db'.users ==> UserRowOk(db', id) by {
        forall id | id in db'.users ensures UserRowOk(db', id) {
          assert UserRowOk(db, id);
        }
      }
      assert forall id :: id in db'.tasks ==> TaskRowOk(db', id) by {
        forall id | id in db'.tasks ensures TaskRowOk(db', id) {
          if id != t.id {
            assert TaskRowOk(db, id);
          }
        }
      }
      Ok(Committed(db', t))
  }

  /** The flush and COMMIT of a task whose attributes were set to `name` and
      `content`. Without a net change no UPDATE is emitted, so neither the
      column constraints nor `onupdate` come into play; only the COMMIT can fail.
      The row read back holds the name as `varchar(200)` stored it. */
  function UpdateTaskRow(db: Db, id: int, name: Option<string>, content: Option<string>, commitFails: bool)
    : (r: Result<Committed<Task>, Exception>)
    requires Valid(db) && id in db.tasks
    ensures r.Ok? <==> !commitFails && name.Some? && TaskFits(name.value, content)
    ensures NetChange(db.tasks[id], name, content) && !TaskNulFree(name, content) ==>
              r == Err(DatabaseError(NulCharacterMessage))
    ensures NetChange(db.tasks[id], name, content) && name.None? && TaskNulFree(name, content) ==>
              r == Err(IntegrityError(NotNullViolationMessage))
    ensures r.Ok? ==> var t, prev := r.value.row, db.tasks[id];
              && t == Task(id, prev.userId, Stored(name.value, TaskNameMax), content, prev.createdAt, t.updatedAt)
              && r.value.db.tasks == db.tasks[id := t]
              && r.value.db.users == db.users
              && Valid(r.value.db)
              && (NetChange(prev, name, content) ==> t.updatedAt == r.value.db.clock > prev.updatedAt)
              && (!NetChange(prev, name, content) ==> r.value.db == db && t == prev)
  {
    var prev := db.tasks[id];
    assert TaskRowOk(db, id);
    if !NetChange(prev, name, content) then
      if commitFails then Err(DatabaseError(ConnectionLostMessage)) else Ok(Committed(db, prev))
    else if !TaskNulFree(name, content) then Err(DatabaseError(NulCharacterMessage))
    else if name.Some? && !Admits(name.value, TaskNameMax) then Err(DatabaseError(ValueTooLongMessage))
    else if name.None? then Err(IntegrityError(NotNullViolationMessage))
    else if commitFails then Err(DatabaseError(ConnectionLostMessage))
    else
      StoredLosesOnlySpaces(name.value, TaskNameMax);
      var now := db.clock + 1;
      var t := Task(id, prev.userId, Stored(name.value, TaskNameMax), content, prev.createdAt, now);
      var db' := db.(tasks := db.tasks[id := t], clock := now);
      assert forall k :: k in db'.users ==> UserRowOk(db', k) by {
        forall k | k in db'.users ensures UserRowOk(db', k) {
          assert UserRowOk(db, k);
        }
      }
      assert forall k :: k in db'.tasks ==> TaskRowOk(db', k) by {
        forall k | k in db'.tasks ensures TaskRowOk(db', k) {
          if k != id {
            assert TaskRowOk(db, k);
          }
        }
      }
      Ok(Committed(db', t))
  }

  /** DELETE FROM tasks then COMMIT. No table references `tasks`, so only the
      COMMIT can fail. */
  function DeleteTaskRow(db: Db, id: int, commitFails: bool): (r: Result<Db, Exception>)
    requires Valid(db) && id in db.tasks
    ensures r.Ok? <==> !commitFails
    ensures r.Ok? ==>
              && r.value.tasks == db.tasks - {id}
              && r.value.users == db.users
              && Valid(r.value)
  {
    if commitFails then Err(DatabaseError(ConnectionLostMessage))
    else
      var db' := db.(tasks := db.tasks - {id});
      assert forall k :: k in db'.users ==> UserRowOk(db', k) by {
        forall k | k in db'.users ensures UserRowOk(db', k) {
          assert UserRowOk(db, k);
        }
      }
      assert forall k :: k in db'.tasks ==> TaskRowOk(db', k) by {
        forall k | k in db'.tasks ensures TaskRowOk(db', k) {
          assert TaskRowOk(db, k);
        }
      }
      Ok(db')
  }
}

=== FILE: results.dfy ===
/** Optional values, success-or-exception results, and possibly-omitted
    constructor arguments, standing in for Python's `None`, raised exceptions
    and Pydantic's "field was (not) set" bookkeeping. */
module Results {

  /** A value that may be absent (Python's `Optional[T]`). */
  datatype Option<+T> = None | Some(value: T)

  /** The outcome of a call: a returned value or a raised exception. */
  datatype Result<+T, +E> = Ok(value: T) | Err(error: E)

  /** A constructor argument as Pydantic records it: either left out by the
      caller (so the field default applies and `exclude_unset` drops it) or
      explicitly given, possibly as `None`. */
  datatype Field<+T> = Unset | Set(value: T) {

    /** The attribute value seen after construction, given the field's default. */
    function Or(default: T): T
    {
      match this
      case Unset => default
      case Set(v) => v
    }
  }
}

=== FILE: scenario.dfy ===
/** One session against an empty database, from user creation to task
    deletion, following the routes in the order a client would call them. */
module Scenario {
  import opened Results
  import opened Errors
  import opened Models
  import opened TaskSchemas
  import opened UserSchemas
  import opened TaskService
  import opened UserRouter

  const Ann := UserCreate("Ann", "ann@x.com", "p", true)
  const AnnAgain := UserCreate("Ann B", "ann@x.com", "q", true)
  const T1 := TaskCreate("T1", None)

  /** Ann is created, and a second user with her email is refused with 400
      while the store keeps one user and no task. */
  lemma UsersPhase(hash: string -> string)
    requires Admits(hash(hash("p")), UserPasswordMax) && Admits(hash(hash("q")), UserPasswordMax)
    ensures var s1 := Create(EmptyDb, Ann, hash, Healthy);
            var s2 := Create(s1.db, AnnAgain, hash, Healthy);
            && s1.result.Ok?
            && s1.result.value.email == Ann.email
            && s2 == Step(s1.db, Err(HttpException(BadRequest, DuplicateEmailDetail)))
            && Valid(s2.db)
            && |s2.db.users| == 1
            && s1.result.value.id in s2.db.users
            && s2.db.tasks == map[]
  {
    var s1 := Create(EmptyDb, Ann, hash, Healthy);
    assert !EmailTaken(EmptyDb.users, Ann.email);
    assert s1.result.Ok?;
    var uid := s1.result.value.id;
    assert s1.db.users == map[uid := UserOfRead(s1.result.value)];
    assert EmailTaken(s1.db.users, AnnAgain.email) by {
      assert s1.db.users[uid].email == AnnAgain.email;
    }
  }

  /** For an existing user and no tasks yet: the task route as written answers
      500 and stores nothing; through the corrected route the task is created
      for the user, is the only task listed for them, and once deleted is not
      found. */
  lemma TasksPhase(db: Db, uid: int)
    requires Valid(db) && uid in db.users && db.tasks == map[]
    ensures var s3 := CreateUserTask(db, uid, T1, Healthy);
            var s4 := CreateUserTaskFixed(s3.db, uid, T1, Healthy);
            && s3 == Step(db, Err(HttpException(InternalServerError, CreateTaskDetail)))
            && s4.result.Ok?
            && s4.result.value.userId == uid
            && GetUserTasks(s4.db, uid, Healthy) == Ok([s4.result.value])
            && var s5 := DeleteTask(s4.db, s4.result.value.id, Healthy);
               && s5.result.Ok?
               && GetTask(s5.db, s4.result.value.id, Healthy) == Err(HttpException(NotFound, NotFoundDetail))
  {
    var s4 := CreateUserTaskFixed(db, uid, T1, Healthy);
    assert s4.result.Ok?;
    var t := TaskOfRead(s4.result.value);
    assert s4.db.tasks == map[t.id := t];
    var listed := Ordered(s4.db, Some(uid));
    assert listed == [t] by {
      OrderedWithinStore(s4.db, Some(uid));
      assert t in listed;
    }
    assert ReadTasks([t]) == [s4.result.value];
  }

  /** The whole session: both phases, the second on the store the first leaves. */
  lemma EndToEnd(hash: string -> string)
    requires Admits(hash(hash("p")), UserPasswordMax) && Admits(hash(hash("q")), UserPasswordMax)
    ensures var s2 := Create(Create(EmptyDb, Ann, hash, Healthy).db, AnnAgain, hash, Healthy);
            var uid := Create(EmptyDb, Ann, hash, Healthy).result.value.id;
            var s4 := CreateUserTaskFixed(s2.db, uid, T1, Healthy);
            && s2.result == Err(HttpException(BadRequest, DuplicateEmailDetail))
            && |s2.db.users| == 1
            && CreateUserTask(s2.db, uid, T1, Healthy).result.Err?
            && s4.result.Ok?
            && GetUserTasks(s4.db, uid, Healthy) == Ok([s4.result.value])
            && GetTask(DeleteTask(s4.db, s4.result.value.id, Healthy).db, s4.result.value.id, Healthy)
               == Err(HttpException(NotFound, NotFoundDetail))
  {
    UsersPhase(hash);
    var s1 := Create(EmptyDb, Ann, hash, Healthy);
    TasksPhase(s1.db, s1.result.value.id);
  }
}

=== FILE: strings.dfy ===
/** The string primitives the core relies on: `str.startswith`, `str.find`,
    `str.replace(old, new, 1)`, `str.lower` and the `in` substring test. */
module Strings {
  import opened Results

  predicate StartsWith(s: string, prefix: string)
  {
    |prefix| <= |s| && s[..|prefix|] == prefix
  }

  /** `p` occurs in `s` starting at index `i`. */
  predicate OccursAt(s: string, p: string, i: int)
  {
    0 <= i && i + |p| <= |s| && s[i..i + |p|] == p
  }

  /** The first index at or after `from` where `p` occurs in `s`. */
  function FindFrom(s: string, p: string, from: nat): (r: Option<nat>)
    decreases |s| - from
    ensures r.Some? ==> from <= r.value && OccursAt(s, p, r.value)
    ensures r.Some? ==> forall j :: from <= j < r.value ==> !OccursAt(s, p, j)
    ensures r.None? ==> forall j :: from <= j ==> !OccursAt(s, p, j)
  {
    if from + |p| > |s| then None
    else if s[from..from + |p|] == p then Some(from)
    else FindFrom(s, p, from + 1)
  }

  /** Python's `s.find(p)`, with `None` for -1. */
  function Find(s: string, p: string): Option<nat>
  {
    FindFrom(s, p, 0)
  }

  /** Python's `p in s` for strings. */
  predicate Contains(s: string, p: string)
  {
    Find(s, p).Some?
  }

  /** Python's `s.replace(pat, rep, 1)`: only the first occurrence is replaced. */
  function ReplaceFirst(s: string, pat: string, rep: string): string
  {
    match Find(s, pat)
    case None => s
    case Some(i) => s[..i] + rep + s[i + |pat|..]
  }

  /** A prefix occurrence is the first one, so replacing once rewrites exactly the prefix. */
  lemma ReplaceFirstAtStart(s: string, pat: string, rep: string)
    requires StartsWith(s, pat)
    ensures ReplaceFirst(s, pat, rep) == rep + s[|pat|..]
  {
    assert OccursAt(s, pat, 0);
  }

  /** `str.lower` on one character; only the ASCII letters are folded. */
  function LowerChar(c: char): char
  {
    if 'A' <= c <= 'Z' then (c as int - 'A' as int + 'a' as int) as char else c
  }

  /** `str.lower` on a whole string, character by character. */
  function Lower(s: string): string
  {
    seq(|s|, i requires 0 <= i < |s| => LowerChar(s[i]))
  }

  lemma LowerSlice(s: string, i: int, j: int)
    requires 0 <= i <= j <= |s|
    ensures Lower(s)[i..j] == Lower(s[i..j])
  {
  }

  /** Lower-casing both sides preserves an occurrence: a marker matched in the
      lower-cased text is found whatever the case of the original. */
  lemma LowerKeepsOccurrence(s: string, p: string)
    requires Contains(s, p)
    ensures Contains(Lower(s), Lower(p))
  {
    var i := Find(s, p).value;
    LowerSlice(s, i, i + |p|);
    assert OccursAt(Lower(s), Lower(p), i);
  }
}

=== FILE: tables.dfy ===
/** Query building blocks over a table keyed by integer primary key:
    `WHERE ... ORDER BY id` as an ascending scan of the keys, and
    `OFFSET skip LIMIT limit` as a window on the ordered rows. */
module Tables {

  /** The keys of `m` in `[lo, hi)` whose rows satisfy `keep`, in ascending order. */
  function AscendingKeys<V>(m: map<int, V>, keep: V -> bool, lo: int, hi: int): (r: seq<int>)
    decreases hi - lo
    ensures forall i :: 0 <= i < |r| ==> r[i] in m && keep(m[r[i]]) && lo <= r[i] < hi
    ensures forall i, j :: 0 <= i < j < |r| ==> r[i] < r[j]
    ensures forall k :: k in m && lo <= k < hi && keep(m[k]) ==> k in r
  {
    if lo >= hi then []
    else if lo in m && keep(m[lo]) then [lo] + AscendingKeys(m, keep, lo + 1, hi)
    else AscendingKeys(m, keep, lo + 1, hi)
  }

  /** A strictly ascending sequence has no repeats, so it is as long as its set of elements. */
  lemma {:induction false} AscendingCount(s: seq<int>)
    requires forall i, j :: 0 <= i < j < |s| ==> s[i] < s[j]
    ensures |set x | x in s| == |s|
  {
    if s != [] {
      AscendingCount(s[1..]);
      assert (set x | x in s) == {s[0]} + (set x | x in s[1..]);
      assert s[0] !in s[1..];
    }
  }

  /** A strictly ascending sequence drawn from `keys` is no longer than `keys`. */
  lemma AscendingWithin(s: seq<int>, keys: set<int>)
    requires forall i, j :: 0 <= i < j < |s| ==> s[i] < s[j]
    requires forall i :: 0 <= i < |s| ==> s[i] in keys
    ensures |s| <= |keys|
  {
    AscendingCount(s);
    SubsetCardinality((set x | x in s), keys);
  }

  /** A subset is no larger than its superset. */
  lemma SubsetCardinality(a: set<int>, b: set<int>)
    requires a <= b
    ensures |a| <= |b|
  {
    assert b == a + (b - a);
  }

  /** The rows stored under `keys`, in the order of `keys`. */
  function RowsAt<V>(m: map<int, V>, keys: seq<int>): (r: seq<V>)
    requires forall i :: 0 <= i < |keys| ==> keys[i] in m
    ensures |r| == |keys|
    ensures forall i :: 0 <= i < |keys| ==> r[i] == m[keys[i]]
  {
    if keys == [] then [] else [m[keys[0]]] + RowsAt(m, keys[1..])
  }

  function Min(a: int, b: int): int
  {
    if a <= b then a else b
  }

  /** `OFFSET skip LIMIT limit`: the rows at positions `skip`, `skip + 1`, ...,
      at most `limit` of them. */
  function Window<T>(s: seq<T>, skip: nat, limit: nat): (r: seq<T>)
    ensures |r| == if skip >= |s| then 0 else Min(limit, |s| - skip)
    ensures |r| <= limit
    ensures forall i :: 0 <= i < |r| ==> r[i] == s[skip + i]
  {
    if skip >= |s| then []
    else if limit >= |s| - skip then s[skip..]
    else s[skip..skip + limit]
  }

  /** Paging: the page at `skip` of size `a` followed by the page right after
      it of size `b` is the page at `skip` of size `a + b`. */
  lemma WindowsConcatenate<T>(s: seq<T>, skip: nat, a: nat, b: nat)
    ensures Window(s, skip, a) + Window(s, skip + a, b) == Window(s, skip, a + b)
  {
    var left, right, whole := Window(s, skip, a), Window(s, skip + a, b), Window(s, skip, a + b);
    if skip + a < |s| {
      assert |left| == a;
      forall i | 0 <= i < |whole|
        ensures (left + right)[i] == whole[i]
      {
        if i >= a {
          assert right[i - a] == s[skip + a + (i - a)];
        }
      }
    }
  }

  /** A window starting at 0 and at least as long as the rows is all of them. */
  lemma WholeWindow<T>(s: seq<T>, limit: nat)
    requires |s| <= limit
    ensures Window(s, 0, limit) == s
  {
  }
}

=== FILE: task_schemas.dfy ===
/** The request and response shapes for tasks: `TaskCreate` (name and
    optional content, no owner), `TaskUpdate` (every field optional, with
    Pydantic's record of which ones the caller set) and the `TaskRead`
    projection of a stored row. */
module TaskSchemas {
  import opened Results
  import opened Models

  /** `TaskCreate`: a required name and an optional content; it has no owner field. */
  datatype TaskCreate = TaskCreate(name: string, content: Option<string>)

  /** Building a `TaskCreate` from the fields a request supplied. */
  function MakeTaskCreate(name: string, content: Field<Option<string>>): (r: TaskCreate)
    ensures r.name == name
    ensures content.Unset? ==> r.content == None
    ensures content.Set? ==> r.content == content.value
  {
    TaskCreate(name, content.Or(None))
  }

  /** `TaskUpdate`: both fields optional, each remembering whether it was set. */
  datatype TaskUpdate = TaskUpdate(name: Field<Option<string>>, content: Field<Option<string>>)

  /** The update a request with an empty body produces. */
  const EmptyUpdate := TaskUpdate(Unset, Unset)

  /** The columns a `TaskUpdate` can write. */
  datatype Column = NameColumn | ContentColumn

  /** One `(field, value)` entry of a dumped model. */
  type Item = (Column, Option<string>)

  /** Some item of `items` writes column `c`. */
  predicate Writes(items: seq<Item>, c: Column)
  {
    exists i :: 0 <= i < |items| && items[i].0 == c
  }

  /** `payload.model_dump(exclude_unset=...)` as its list of items, in field
      order. With `excludeUnset` only the fields the caller set appear; without
      it every field appears, an unset one with its default `None`. */
  function Dump(p: TaskUpdate, excludeUnset: bool): (r: seq<Item>)
    ensures forall i :: 0 <= i < |r| ==>
              (r[i].0 == NameColumn ==> r[i].1 == p.name.Or(None)) &&
              (r[i].0 == ContentColumn ==> r[i].1 == p.content.Or(None))
    ensures Writes(r, NameColumn) <==> !excludeUnset || p.name.Set?
    ensures Writes(r, ContentColumn) <==> !excludeUnset || p.content.Set?
    ensures |r| <= 2
  {
    var name: seq<Item> := if excludeUnset && p.name.Unset? then [] else [(NameColumn, p.name.Or(None))];
    var content: seq<Item> := if excludeUnset && p.content.Unset? then [] else [(ContentColumn, p.content.Or(None))];
    var r := name + content;
    assert name != [] ==> r[0].0 == NameColumn;
    assert content != [] ==> r[|name|].0 == ContentColumn;
    r
  }

  /** An empty update dumps to nothing once unset fields are excluded, but to
      two `None`s otherwise. */
  lemma EmptyUpdateDump()
    ensures Dump(EmptyUpdate, true) == []
    ensures Dump(EmptyUpdate, false) == [(NameColumn, None), (ContentColumn, None)]
  {
  }

  /** `TaskRead`: exactly id, owner, name, content and the two timestamps. */
  datatype TaskRead = TaskRead(id: int, userId: int, name: string, content: Option<string>,
                               createdAt: nat, updatedAt: nat)

  /** `TaskRead.from_orm(task)`. */
  function ReadTask(t: Task): (r: TaskRead)
    ensures r.id == t.id && r.userId == t.userId && r.name == t.name && r.content == t.content
    ensures r.createdAt == t.createdAt && r.updatedAt == t.updatedAt
  {
    TaskRead(t.id, t.userId, t.name, t.content, t.createdAt, t.updatedAt)
  }

  /** The projection drops no column: the row can be rebuilt from it. */
  function TaskOfRead(r: TaskRead): (t: Task)
    ensures ReadTask(t) == r
  {
    Task(r.id, r.userId, r.name, r.content, r.createdAt, r.updatedAt)
  }

  function ReadTasks(ts: seq<Task>): (r: seq<TaskRead>)
    ensures |r| == |ts|
    ensures forall i :: 0 <= i < |ts| ==> r[i] == ReadTask(ts[i])
  {
    if ts == [] then [] else [ReadTask(ts[0])] + ReadTasks(ts[1..])
  }
}

=== FILE: task_service.dfy ===
/** The task service: create, get, list, partial update and delete over the
    `tasks` table, each turning storage failures into HTTP errors with a fixed
    detail after rolling back. */
module TaskService {
  import opened Results
  import opened Errors
  import opened Models
  import opened Tables
  import opened TaskSchemas

  const CreateFailedDetail := "Failed to create task"
  const NotFoundDetail := "Task not found"
  const ListFailedDetail := "Failed to list tasks"
  const UpdateFailedDetail := "Failed to update task"
  const DeleteFailedDetail := "Failed to delete task"

  /** The default window of `list_tasks`. */
  const DefaultSkip := 0
  const DefaultLimit := 100

  /** `try: commit; refresh; return row` with `except SQLAlchemyError: rollback;
      raise HTTPException(500, detail)`. A failed refresh comes after the COMMIT,
      so the rollback has nothing left to undo. */
  function Finish<T>(db: Db, commit: Result<Committed<T>, Exception>, fault: Fault, detail: string): Step<T>
  {
    match commit
    case Err(_) => Step(db, Err(HttpException(InternalServerError, detail)))
    case Ok(c) =>
      if fault == FailsOnRefresh then Step(c.db, Err(HttpException(InternalServerError, detail)))
      else Step(c.db, Ok(c.row))
  }

  // ---------------------------------------------------------------- create

  /** `create_task(db, payload)`: the row is built from the payload alone, so
      its `user_id` is NULL and the flush always violates the NOT NULL
      constraint; every call rolls back and answers 500. */
  function CreateTask(db: Db, payload: TaskCreate, fault: Fault): (r: Step<Task>)
    requires Valid(db)
    ensures r == Step(db, Err(HttpException(InternalServerError, CreateFailedDetail)))
  {
    var row := NewTask(None, payload.name, payload.content);
    Finish(db, InsertTask(db, row, fault == FailsOnCommit), fault, CreateFailedDetail)
  }

  /** `create_task` as it is evidently meant to work: the owner passed by the
      caller becomes the row's `user_id`. */
  function CreateTaskFor(db: Db, payload: TaskCreate, owner: int, fault: Fault): (r: Step<Task>)
    requires Valid(db)
    ensures Valid(r.db) && r.db.users == db.users
    ensures r.result.Ok? <==>
              && (fault == Healthy || fault == FailsOnRead)
              && owner in db.users
              && TaskFits(payload.name, payload.content)
    ensures r.result.Ok? ==> var t := r.result.value;
              && t.userId == owner
              && t.name == Stored(payload.name, TaskNameMax)
              && t.content == payload.content
              && t.createdAt == t.updatedAt
              && t.id !in db.tasks
              && r.db.tasks == db.tasks[t.id := t]
    ensures r.result.Err? ==> r.result.error == HttpException(InternalServerError, CreateFailedDetail)
    ensures r.result.Err? && fault != FailsOnRefresh ==> r.db == db
    ensures fault == FailsOnRefresh && owner in db.users && TaskFits(payload.name, payload.content) ==>
              TaskAdded(db.tasks, r.db.tasks, owner, payload.name, payload.content)
  {
    var row := NewTask(Some(owner), payload.name, payload.content);
    var c := InsertTask(db, row, fault == FailsOnCommit);
    assert c.Ok? ==> TaskAdded(db.tasks, c.value.db.tasks, owner, payload.name, payload.content);
    Finish(db, c, fault, CreateFailedDetail)
  }

  // ---------------------------------------------------------------- get

  /** `get_task`: a missing id is a 404; a failing query escapes unhandled. */
  function GetTask(db: Db, id: int, fault: Fault): (r: Result<Task, Exception>)
    ensures fault == FailsOnRead ==> r == Err(DatabaseError(ConnectionLostMessage))
    ensures fault != FailsOnRead ==> (r.Ok? <==> id in db.tasks)
    ensures fault != FailsOnRead && id !in db.tasks ==> r == Err(HttpException(NotFound, NotFoundDetail))
    ensures r.Ok? ==> id in db.tasks && r.value == db.tasks[id]
  {
    if fault == FailsOnRead then Err(DatabaseError(ConnectionLostMessage))
    else if id !in db.tasks then Err(HttpException(NotFound, NotFoundDetail))
    else Ok(db.tasks[id])
  }

  // ---------------------------------------------------------------- list

  /** The owner filter; `None` means no filter. */
  predicate OwnedBy(owner: Option<int>, t: Task)
  {
    owner.None? || t.userId == owner.value
  }

  /** Ids strictly ascending along the sequence. */
  predicate IdsAscending(s: seq<Task>)
  {
    forall i, j :: 0 <= i < j < |s| ==> s[i].id < s[j].id
  }

  /** Every task of `s` is stored under its id and passes the filter. */
  predicate StoredAndOwned(db: Db, owner: Option<int>, s: seq<Task>)
  {
    forall i :: 0 <= i < |s| ==> s[i].id in db.tasks && db.tasks[s[i].id] == s[i] && OwnedBy(owner, s[i])
  }

  /** The rows of `SELECT ... [WHERE user_id = owner] ORDER BY id` before the
      window: every stored task that passes the filter, ascending by id. */
  function Ordered(db: Db, owner: Option<int>): (r: seq<Task>)
    requires Valid(db)
    ensures IdsAscending(r)
    ensures StoredAndOwned(db, owner, r)
    ensures forall id :: id in db.tasks && OwnedBy(owner, db.tasks[id]) ==> db.tasks[id] in r
  {
    var keys := AscendingKeys(db.tasks, (t: Task) => OwnedBy(owner, t), 1, db.nextTaskId);
    var r := RowsAt(db.tasks, keys);
    RowsOfOwnedKeys(db, owner, keys, r);
    r
  }

  /** The rows under the ascending scan of the owner's keys are the owner's
      tasks, ascending by id, each of them present. */
  lemma RowsOfOwnedKeys(db: Db, owner: Option<int>, keys: seq<int>, r: seq<Task>)
    requires Valid(db)
    requires forall i :: 0 <= i < |keys| ==> keys[i] in db.tasks && OwnedBy(owner, db.tasks[keys[i]])
    requires forall i, j :: 0 <= i < j < |keys| ==> keys[i] < keys[j]
    requires forall k :: k in db.tasks && 1 <= k < db.nextTaskId && OwnedBy(owner, db.tasks[k]) ==> k in keys
    requires |r| == |keys| && forall i :: 0 <= i < |keys| ==> r[i] == db.tasks[keys[i]]
    ensures IdsAscending(r)
    ensures StoredAndOwned(db, owner, r)
    ensures forall id :: id in db.tasks && OwnedBy(owner, db.tasks[id]) ==> db.tasks[id] in r
  {
    assert forall i :: 0 <= i < |keys| ==> r[i].id == keys[i] by {
      forall i | 0 <= i < |keys| ensures r[i].id == keys[i] {
        assert TaskRowOk(db, keys[i]);
      }
    }
    forall id | id in db.tasks && OwnedBy(owner, db.tasks[id]) ensures db.tasks[id] in r {
      assert TaskRowOk(db, id);
      assert id in keys;
      var i :| 0 <= i < |keys| && keys[i] == id;
      assert r[i] == db.tasks[id];
    }
  }

  /** The query of `list_tasks`: the filtered rows in id order, windowed by
      OFFSET/LIMIT. The database rejects a negative OFFSET or LIMIT. */
  function SelectTasks(db: Db, owner: Option<int>, skip: int, limit: int, fault: Fault)
    : (r: Result<seq<Task>, Exception>)
    requires Valid(db)
    ensures fault == FailsOnRead ==> r == Err(DatabaseError(ConnectionLostMessage))
    ensures fault != FailsOnRead && (skip < 0 || limit < 0) ==> r == Err(DatabaseError(NegativeWindowMessage))
    ensures r.Ok? <==> fault != FailsOnRead && skip >= 0 && limit >= 0
    ensures r.Ok? ==> |r.value| <= limit
    ensures r.Ok? ==> IdsAscending(r.value)
    ensures r.Ok? ==> StoredAndOwned(db, owner, r.value)
    ensures r.Ok? ==> r.value == Window(Ordered(db, owner), skip, limit)
  {
    if fault == FailsOnRead then Err(DatabaseError(ConnectionLostMessage))
    else if skip < 0 || limit < 0 then Err(DatabaseError(NegativeWindowMessage))
    else
      var all := Ordered(db, owner);
      var page := Window(all, skip, limit);
      assert IdsAscending(page) by {
        forall i, j | 0 <= i < j < |page| ensures page[i].id < page[j].id {
          assert page[i] == all[skip + i] && page[j] == all[skip + j];
        }
      }
      assert StoredAndOwned(db, owner, page) by {
        forall i | 0 <= i < |page|
          ensures page[i].id in db.tasks && db.tasks[page[i].id] == page[i] && OwnedBy(owner, page[i])
        {
          assert page[i] == all[skip + i];
        }
      }
      Ok(page)
  }

  /** `list_tasks(db, user_id, skip, limit)`: every database error of the query
      becomes 500 "Failed to list tasks". */
  function ListTasks(db: Db, owner: Option<int>, skip: int, limit: int, fault: Fault): (r: Result<seq<Task>, Exception>)
    requires Valid(db)
    ensures r.Err? <==> fault == FailsOnRead || skip < 0 || limit < 0
    ensures r.Err? ==> r.error == HttpException(InternalServerError, ListFailedDetail)
    ensures r.Ok? ==> |r.value| <= limit
    ensures r.Ok? ==> IdsAscending(r.value)
    ensures r.Ok? ==> StoredAndOwned(db, owner, r.value)
    ensures r.Ok? ==> r.value == Window(Ordered(db, owner), skip, limit)
  {
    match SelectTasks(db, owner, skip, limit, fault)
    case Err(_) => Err(HttpException(InternalServerError, ListFailedDetail))
    case Ok(page) => Ok(page)
  }

  /** The filtered rows are no more than the stored tasks. */
  lemma OrderedWithinStore(db: Db, owner: Option<int>)
    requires Valid(db)
    ensures |Ordered(db, owner)| <= |db.tasks|
  {
    var all := Ordered(db, owner);
    var ids := seq(|all|, i requires 0 <= i < |all| => all[i].id);
    AscendingWithin(ids, db.tasks.Keys);
  }

  /** A first page as long as the stored tasks holds every task the filter admits. */
  lemma FirstPageIsComplete(db: Db, owner: Option<int>, limit: int)
    requires Valid(db) && |db.tasks| <= limit
    ensures var r := ListTasks(db, owner, 0, limit, Healthy);
            r.Ok? && forall id :: id in db.tasks && OwnedBy(owner, db.tasks[id]) ==> db.tasks[id] in r.value
  {
    var all := Ordered(db, owner);
    OrderedWithinStore(db, owner);
    WholeWindow(all, limit);
    assert ListTasks(db, owner, 0, limit, Healthy) == Ok(all);
  }

  // ---------------------------------------------------------------- update

  /** The two attributes a `TaskUpdate` can assign on the loaded object;
      `name` may be assigned `None` before the database gets to refuse it. */
  datatype Attributes = Attributes(name: Option<string>, content: Option<string>)

  function Attribute(a: Attributes, c: Column): Option<string>
  {
    match c
    case NameColumn => a.name
    case ContentColumn => a.content
  }

  /** `setattr(task, field, value)`. */
  function SetAttr(a: Attributes, item: Item): Attributes
  {
    match item.0
    case NameColumn => a.(name := item.1)
    case ContentColumn => a.(content := item.1)
  }

  /** `for field, value in data.items(): setattr(task, field, value)`. */
  function SetAttrs(a: Attributes, items: seq<Item>): Attributes
    decreases |items|
  {
    if items == [] then a else SetAttrs(SetAttr(a, items[0]), items[1..])
  }

  /** The value the last item for column `c` carries, if any item names it. */
  function LastWrite(items: seq<Item>, c: Column): Field<Option<string>>
  {
    if items == [] then Unset
    else if items[|items| - 1].0 == c then Set(items[|items| - 1].1)
    else LastWrite(items[..|items| - 1], c)
  }

  lemma {:induction false} SetAttrsSnoc(a: Attributes, items: seq<Item>, x: Item)
    ensures SetAttrs(a, items + [x]) == SetAttr(SetAttrs(a, items), x)
    decreases |items|
  {
    if items != [] {
      assert (items + [x])[1..] == items[1..] + [x];
      SetAttrsSnoc(SetAttr(a, items[0]), items[1..], x);
    }
  }

  /** After the assignment loop each attribute holds the value of the last item
      naming it, and keeps its value when no item names it. */
  lemma {:induction false} SetAttrsLastWriteWins(a: Attributes, items: seq<Item>, c: Column)
    ensures Attribute(SetAttrs(a, items), c) == LastWrite(items, c).Or(Attribute(a, c))
    decreases |items|
  {
    if items != [] {
      var init, last := items[..|items| - 1], items[|items| - 1];
      assert items == init + [last];
      SetAttrsSnoc(a, init, last);
      SetAttrsLastWriteWins(a, init, c);
    }
  }

  /** The intended merge, field by field: a field the caller set is written,
      an explicit `None` included; an unset field keeps the stored value. */
  function Merge(t: Task, p: TaskUpdate): Attributes
  {
    Attributes(p.name.Or(Some(t.name)), p.content.Or(t.content))
  }

  /** Assigning the items of `model_dump(exclude_unset=True)` performs exactly
      the field-by-field merge. */
  lemma DumpedPatchMerges(t: Task, p: TaskUpdate)
    ensures SetAttrs(Attributes(Some(t.name), t.content), Dump(p, true)) == Merge(t, p)
  {
    var a, items := Attributes(Some(t.name), t.content), Dump(p, true);
    SetAttrsLastWriteWins(a, items, NameColumn);
    SetAttrsLastWriteWins(a, items, ContentColumn);
  }

  /** Without `exclude_unset` an empty update would assign `None` to the
      NOT NULL name. */
  lemma FullDumpClearsName(t: Task)
    ensures SetAttrs(Attributes(Some(t.name), t.content), Dump(EmptyUpdate, false)).name == None
  {
    var a, items := Attributes(Some(t.name), t.content), Dump(EmptyUpdate, false);
    assert items == [(NameColumn, None), (ContentColumn, None)];
    assert items[..1] == [(NameColumn, None)];
    SetAttrsLastWriteWins(a, items, NameColumn);
  }

  /** The values the patch sets survive the column constraints: a set name is
      not `None` and fits `varchar(200)`, and no set value carries NUL. */
  predicate PatchAccepted(p: TaskUpdate)
  {
    && (p.name.Set? ==> p.name.value.Some? && Admits(p.name.value.value, TaskNameMax))
    && (p.content.Set? && p.content.value.Some? ==> NulFree(p.content.value.value))
  }

  /** `t` is `prev` with `p` merged in: identity, owner and creation time kept,
      the merged fields written (the name as `varchar(200)` stores it),
      `updated_at` advanced exactly when the row changed. */
  predicate Patched(prev: Task, p: TaskUpdate, t: Task)
  {
    var m := Merge(prev, p);
    && t.id == prev.id
    && t.userId == prev.userId
    && t.createdAt == prev.createdAt
    && m.name.Some?
    && t.name == Stored(m.name.value, TaskNameMax)
    && t.content == m.content
    && (NetChange(prev, m.name, m.content) ==> t.updatedAt > prev.updatedAt)
    && (!NetChange(prev, m.name, m.content) ==> t == prev)
  }

  /** `update_task(db, task_id, payload)`. */
  function UpdateTask(db: Db, id: int, patch: TaskUpdate, fault: Fault): (r: Step<Task>)
    requires Valid(db)
    ensures Valid(r.db) && r.db.users == db.users
    ensures fault == FailsOnRead ==> r == Step(db, Err(DatabaseError(ConnectionLostMessage)))
    ensures fault != FailsOnRead && id !in db.tasks ==> r == Step(db, Err(HttpException(NotFound, NotFoundDetail)))
    ensures fault != FailsOnRead && id in db.tasks ==>
              (r.result.Ok? <==> fault == Healthy && PatchAccepted(patch))
    ensures fault != FailsOnRead && id in db.tasks && r.result.Err? ==>
              r.result.error == HttpException(InternalServerError, UpdateFailedDetail)
    ensures r.result.Ok? ==> id in db.tasks && Patched(db.tasks[id], patch, r.result.value)
    ensures r.result.Ok? ==> r.db.tasks == db.tasks[id := r.result.value]
    ensures r.result.Err? && fault != FailsOnRefresh ==> r.db == db
    ensures fault == FailsOnRefresh && id in db.tasks && PatchAccepted(patch) ==>
              exists t: Task :: Patched(db.tasks[id], patch, t) && r.db.tasks == db.tasks[id := t]
  {
    match GetTask(db, id, fault)
    case Err(e) => Step(db, Err(e))
    case Ok(task) =>
      var a := SetAttrs(Attributes(Some(task.name), task.content), Dump(patch, true));
      DumpedPatchMerges(task, patch);
      var c := UpdateTaskRow(db, id, a.name, a.content, fault == FailsOnCommit);
      assert c.Ok? ==> Patched(task, patch, c.value.row) && c.value.db.tasks == db.tasks[id := c.value.row];
      Finish(db, c, fault, UpdateFailedDetail)
  }

  // ---------------------------------------------------------------- delete

  /** `delete_task(db, task_id)`. */
  function DeleteTask(db: Db, id: int, fault: Fault): (r: Step<()>)
    requires Valid(db)
    ensures Valid(r.db) && r.db.users == db.users
    ensures fault == FailsOnRead ==> r == Step(db, Err(DatabaseError(ConnectionLostMessage)))
    ensures fault != FailsOnRead && id !in db.tasks ==> r == Step(db, Err(HttpException(NotFound, NotFoundDetail)))
    ensures r.result.Ok? <==> fault in {Healthy, FailsOnRefresh} && id in db.tasks
    ensures fault == FailsOnCommit && id in db.tasks ==>
              r == Step(db, Err(HttpException(InternalServerError, DeleteFailedDetail)))
    ensures r.result.Ok? ==> id !in r.db.tasks
    ensures r.result.Ok? ==> forall k :: k in db.tasks && k != id ==> k in r.db.tasks && r.db.tasks[k] == db.tasks[k]
    ensures r.result.Ok? ==> r.db.tasks.Keys == db.tasks.Keys - {id}
    ensures r.result.Err? ==> r.db == db
  {
    match GetTask(db, id, fault)
    case Err(e) => Step(db, Err(e))
    case Ok(_) =>
      match DeleteTaskRow(db, id, fault == FailsOnCommit)
      case Err(_) => Step(db, Err(HttpException(InternalServerError, DeleteFailedDetail)))
      case Ok(db') => Step(db', Ok(()))
  }

  // ---------------------------------------------------------------- round trips

  /** A task created for an owner is read back unchanged, with equal timestamps. */
  lemma GetAfterCreate(db: Db, payload: TaskCreate, owner: int)
    requires Valid(db)
    requires owner in db.users && TaskFits(payload.name, payload.content)
    ensures var r := CreateTaskFor(db, payload, owner, Healthy);
            && r.result.Ok?
            && GetTask(r.db, r.result.value.id, Healthy) == Ok(r.result.value)
            && r.result.value.userId == owner
            && r.result.value.name == Stored(payload.name, TaskNameMax)
            && r.result.value.content == payload.content
            && r.result.value.createdAt == r.result.value.updatedAt
  {
  }

  /** A name padded past 200 characters with spaces is not refused: it is
      stored cut to 200 characters, so only the padding is lost. */
  lemma PaddedNameIsCut(db: Db, payload: TaskCreate, owner: int, name: string, pad: nat)
    requires Valid(db) && owner in db.users
    requires Fits(name, TaskNameMax) && TaskNameMax < |name| + pad
    requires payload.name == name + Spaces(pad)
    requires payload.content.Some? ==> NulFree(payload.content.value)
    ensures var r := CreateTaskFor(db, payload, owner, Healthy);
            r.result.Ok? && r.result.value.name == name + Spaces(TaskNameMax - |name|)
  {
    var s := payload.name;
    assert Admits(s, TaskNameMax) by {
      assert forall i :: 0 <= i < |s| ==> s[i] != '\0' by {
        forall i | 0 <= i < |s| ensures s[i] != '\0' {
          if i >= |name| { assert s[i] == Spaces(pad)[i - |name|]; }
        }
      }
    }
    assert Stored(s, TaskNameMax) == name + Spaces(TaskNameMax - |name|);
  }

  /** After a successful update, reading the task gives the patched row. */
  lemma GetAfterUpdate(db: Db, id: int, patch: TaskUpdate)
    requires Valid(db) && id in db.tasks && PatchAccepted(patch)
    ensures var r := UpdateTask(db, id, patch, Healthy);
            && r.result.Ok?
            && GetTask(r.db, id, Healthy) == r.result
            && Patched(db.tasks[id], patch, r.result.value)
  {
  }

  /** An empty update changes nothing at all, not even `updated_at`. */
  lemma EmptyUpdateIsIdentity(db: Db, id: int)
    requires Valid(db) && id in db.tasks
    ensures UpdateTask(db, id, EmptyUpdate, Healthy) == Step(db, Ok(db.tasks[id]))
  {
    var r := UpdateTask(db, id, EmptyUpdate, Healthy);
    assert Patched(db.tasks[id], EmptyUpdate, r.result.value);
  }

  /** Setting only the content leaves the name as it was; a content that
      carries NUL is refused and nothing changes. */
  lemma ContentOnlyKeepsName(db: Db, id: int, content: Option<string>)
    requires Valid(db) && id in db.tasks
    ensures var r := UpdateTask(db, id, TaskUpdate(Unset, Set(content)), Healthy);
            && (r.result.Ok? <==> content.None? || NulFree(content.value))
            && (r.result.Ok? ==> r.result.value.name == db.tasks[id].name && r.result.value.content == content)
            && (r.result.Err? ==> r.db == db)
  {
  }

  /** Setting the name explicitly to `None` is written, and the NOT NULL column refuses it. */
  lemma NullNameIsRefused(db: Db, id: int)
    requires Valid(db) && id in db.tasks
    ensures UpdateTask(db, id, TaskUpdate(Set(None), Unset), Healthy)
            == Step(db, Err(HttpException(InternalServerError, UpdateFailedDetail)))
  {
  }

  /** Once deleted, a task is not found. */
  lemma GetAfterDelete(db: Db, id: int)
    requires Valid(db) && id in db.tasks
    ensures var r := DeleteTask(db, id, Healthy);
            r.result.Ok? && GetTask(r.db, id, Healthy) == Err(HttpException(NotFound, NotFoundDetail))
  {
  }
}

=== FILE: user_router.dfy ===
/** The `/users` router: creating a user (with the exception-to-status
    classification of its handler), listing users, and the two task
    sub-resources of a user. Every handler turns what escapes the services
    into an HTTP error with a fixed detail. */
module UserRouter {
  import opened Results
  import opened Errors
  import opened Strings
  import opened Models
  import opened Tables
  import opened TaskSchemas
  import opened UserSchemas
  import opened TaskService
  import opened UserService

  const DuplicateEmailDetail := "A user with this email already exists"
  const ConstraintDetail := "Database constraint violation"
  const InvalidInputPrefix := "Invalid input: "
  const UnexpectedCreateDetail := "An unexpected error occurred while creating the user"
  const FetchUsersDetail := "An error occurred while fetching users"
  const FetchTasksDetail := "An error occurred while fetching tasks"
  const CreateTaskDetail := "An error occurred while creating the task"

  // ---------------------------------------------------------------- POST /users/

  /** What the `create` handler does with an exception: the status and detail
      of the HTTP error it raises, and whether it rolls the session back first. */
  datatype Handled = Handled(status: int, detail: string, rollsBack: bool)

  /** The duplicate-email test of the handler, on the lower-cased exception text. */
  predicate MentionsDuplicate(message: string)
  {
    Contains(Lower(message), "unique constraint") || Contains(Lower(message), DuplicateKeyMarker)
  }

  /** The `except` clauses of `create`, in order: integrity errors are 400
      (duplicate or not), value errors 422 without a rollback, and everything
      else, an `HTTPException` included, 500 with a detail that does not
      depend on the error. */
  function HandleCreateError(e: Exception): (r: Handled)
    ensures r.status == BadRequest <==> e.IntegrityError?
    ensures r.status == UnprocessableEntity <==> e.ValueError?
    ensures r.status == InternalServerError <==> !e.IntegrityError? && !e.ValueError?
    ensures r.detail == DuplicateEmailDetail <==> e.IntegrityError? && MentionsDuplicate(e.message)
    ensures e.IntegrityError? && !MentionsDuplicate(e.message) ==> r.detail == ConstraintDetail
    ensures e.ValueError? ==> r.detail == InvalidInputPrefix + e.message
    ensures r.status == InternalServerError ==> r.detail == UnexpectedCreateDetail
    ensures r.rollsBack <==> !e.ValueError?
  {
    match e
    case IntegrityError(m) =>
      Handled(BadRequest, if MentionsDuplicate(m) then DuplicateEmailDetail else ConstraintDetail, true)
    case ValueError(m) =>
      assert (InvalidInputPrefix + m)[0] != DuplicateEmailDetail[0];
      Handled(UnprocessableEntity, InvalidInputPrefix + m, false)
    case _ => Handled(InternalServerError, UnexpectedCreateDetail, true)
  }

  /** The markers are matched whatever their case in the exception text. */
  lemma MarkerCaseIgnored(message: string, marker: string)
    requires Lower(marker) == "unique constraint" || Lower(marker) == DuplicateKeyMarker
    requires Contains(message, marker)
    ensures HandleCreateError(IntegrityError(message)).detail == DuplicateEmailDetail
  {
    LowerKeepsOccurrence(message, marker);
  }

  /** A text that opens with "duplicate key" is taken for a duplicate. */
  lemma LeadingMarkerDetected(m: string)
    requires StartsWith(m, DuplicateKeyMarker)
    ensures MentionsDuplicate(m)
  {
    var n := |DuplicateKeyMarker|;
    LowerSlice(m, 0, n);
    assert m[0..n] == DuplicateKeyMarker;
    assert Lower(m)[0..n] == DuplicateKeyMarker;
    assert OccursAt(Lower(m), DuplicateKeyMarker, 0);
  }

  /** The database's unique-violation text carries the "duplicate key" marker. */
  lemma UniqueViolationIsDuplicate()
    ensures MentionsDuplicate(UniqueViolationMessage)
  {
    LeadingMarkerDetected(UniqueViolationMessage);
  }

  /** The handler's answer to an exception. */
  function Raise(e: Exception): Exception
  {
    var h := HandleCreateError(e);
    HttpException(h.status, h.detail)
  }

  /** `create(user)` as written: the router replaces the password by its hash,
      and the service hashes that again. */
  function Create(db: Db, input: UserCreate, hash: string -> string, fault: Fault): (r: Step<UserRead>)
    requires Valid(db)
    ensures Valid(r.db) && r.db.tasks == db.tasks
    ensures r.result.Ok? <==>
              && (fault == Healthy || fault == FailsOnRead)
              && UserFits(input.name, input.email, hash(hash(input.password)))
              && !EmailTaken(db.users, Stored(input.email, UserEmailMax))
    ensures r.result.Ok? ==> var id := r.result.value.id;
              && id !in db.users
              && r.db.users == db.users[id := UserOfRead(r.result.value)]
              && r.result.value.password == Stored(hash(hash(input.password)), UserPasswordMax)
              && r.result.value.name == Stored(input.name, UserNameMax)
              && r.result.value.email == Stored(input.email, UserEmailMax)
              && r.result.value.isActive == input.isActive
    ensures r.result.Err? ==> r.result.error.HttpException?
    ensures r.result.Err? ==> r.result.error.status in {BadRequest, InternalServerError}
    ensures UserFits(input.name, input.email, hash(hash(input.password)))
              && EmailTaken(db.users, Stored(input.email, UserEmailMax)) ==>
              r == Step(db, Err(HttpException(BadRequest, DuplicateEmailDetail)))
    ensures r.result.Err? &&
              !(UserFits(input.name, input.email, hash(hash(input.password)))
                && EmailTaken(db.users, Stored(input.email, UserEmailMax))) ==>
              r.result.error == HttpException(InternalServerError, UnexpectedCreateDetail)
    ensures r.result.Err? && fault != FailsOnRefresh ==> r.db == db
    ensures fault == FailsOnRefresh && UserFits(input.name, input.email, hash(hash(input.password)))
              && !EmailTaken(db.users, Stored(input.email, UserEmailMax)) ==>
              UserAdded(db.users, r.db.users, input.name, input.email, hash(hash(input.password)), input.isActive)
  {
    UniqueViolationIsDuplicate();
    var hashed := input.(password := hash(input.password));
    var s := CreateUser(db, hashed, hash, fault);
    match s.result
    case Ok(u) => Step(s.db, Ok(ReadUser(u)))
    case Err(e) => Step(s.db, Err(Raise(e)))
  }

  /** `create(user)` with the password hashed once, in the service only. */
  function CreateHashOnce(db: Db, input: UserCreate, hash: string -> string, fault: Fault): (r: Step<UserRead>)
    requires Valid(db)
    ensures Valid(r.db) && r.db.tasks == db.tasks
    ensures r.result.Ok? <==>
              && (fault == Healthy || fault == FailsOnRead)
              && UserFits(input.name, input.email, hash(input.password))
              && !EmailTaken(db.users, Stored(input.email, UserEmailMax))
    ensures r.result.Ok? ==> var id := r.result.value.id;
              && id !in db.users
              && r.db.users == db.users[id := UserOfRead(r.result.value)]
              && r.result.value.password == Stored(hash(input.password), UserPasswordMax)
              && r.result.value.name == Stored(input.name, UserNameMax)
              && r.result.value.email == Stored(input.email, UserEmailMax)
              && r.result.value.isActive == input.isActive
    ensures UserFits(input.name, input.email, hash(input.password))
              && EmailTaken(db.users, Stored(input.email, UserEmailMax)) ==>
              r == Step(db, Err(HttpException(BadRequest, DuplicateEmailDetail)))
    ensures r.result.Err? &&
              !(UserFits(input.name, input.email, hash(input.password))
                && EmailTaken(db.users, Stored(input.email, UserEmailMax))) ==>
              r.result.error == HttpException(InternalServerError, UnexpectedCreateDetail)
    ensures r.result.Err? && fault != FailsOnRefresh ==> r.db == db
    ensures fault == FailsOnRefresh && UserFits(input.name, input.email, hash(input.password))
              && !EmailTaken(db.users, Stored(input.email, UserEmailMax)) ==>
              UserAdded(db.users, r.db.users, input.name, input.email, hash(input.password), input.isActive)
  {
    UniqueViolationIsDuplicate();
    var s := CreateUser(db, input, hash, fault);
    match s.result
    case Ok(u) => Step(s.db, Ok(ReadUser(u)))
    case Err(e) => Step(s.db, Err(Raise(e)))
  }

  /** A hash function for which hashing twice differs from hashing once. */
  function TagHash(s: string): string
  {
    "h" + s
  }

  /** With the double hash, the stored password is not the hash of what the
      user sent, so a later check of that password against it would fail. */
  lemma DoubleHashCounterexample()
    ensures var input := UserCreate("Ann", "ann@x.com", "p", true);
            var r := Create(EmptyDb, input, TagHash, Healthy);
            && r.result.Ok?
            && r.result.value.password == "hhp"
            && r.result.value.password != TagHash(input.password)
  {
    var input := UserCreate("Ann", "ann@x.com", "p", true);
    assert !EmailTaken(EmptyDb.users, input.email);
    assert UserFits(input.name, input.email, TagHash(TagHash(input.password)));
  }

  // ---------------------------------------------------------------- GET /users/

  /** `read_all`: every user, or 500 with the handler's own detail. */
  function ReadAll(db: Db, fault: Fault): (r: Result<seq<UserRead>, Exception>)
    requires Valid(db)
    ensures r.Err? <==> fault == FailsOnRead
    ensures r.Err? ==> r.error == HttpException(InternalServerError, FetchUsersDetail)
    ensures r.Ok? ==> |r.value| == |db.users|
    ensures r.Ok? ==> forall u :: u in db.users.Values ==> ReadUser(u) in r.value
  {
    match GetUsers(db, fault)
    case Err(_) => Err(HttpException(InternalServerError, FetchUsersDetail))
    case Ok(users) =>
      ReadEveryUser(db, users);
      Ok(ReadUsers(users))
  }

  lemma ReadEveryUser(db: Db, users: seq<User>)
    requires forall u :: u in db.users.Values ==> u in users
    ensures forall u :: u in db.users.Values ==> ReadUser(u) in ReadUsers(users)
  {
    var r := ReadUsers(users);
    forall u | u in db.users.Values ensures ReadUser(u) in r {
      var i :| 0 <= i < |users| && users[i] == u;
      assert r[i] == ReadUser(u);
    }
  }

  // ---------------------------------------------------------------- GET /users/{user_id}/tasks

  /** `get_user_tasks`: the user's tasks in the default window. The 500 that
      `list_tasks` raises is itself caught and replaced by this handler's detail. */
  function GetUserTasks(db: Db, userId: int, fault: Fault): (r: Result<seq<TaskRead>, Exception>)
    requires Valid(db)
    ensures r.Err? <==> fault == FailsOnRead
    ensures r.Err? ==> r.error == HttpException(InternalServerError, FetchTasksDetail)
    ensures r.Ok? ==> r.value == ReadTasks(Window(Ordered(db, Some(userId)), DefaultSkip, DefaultLimit))
    ensures r.Ok? ==> |r.value| <= DefaultLimit
    ensures r.Ok? ==> forall i :: 0 <= i < |r.value| ==> r.value[i].userId == userId
  {
    match ListTasks(db, Some(userId), DefaultSkip, DefaultLimit, fault)
    case Err(_) => Err(HttpException(InternalServerError, FetchTasksDetail))
    case Ok(tasks) => Ok(ReadTasks(tasks))
  }

  // ---------------------------------------------------------------- POST /users/{user_id}/tasks

  /** Python's binding of a call's arguments to parameters that have no
      defaults: a TypeError unless the positional arguments fit, every keyword
      names a parameter left after them, and every such parameter is given. */
  function BindCall(params: seq<string>, positional: nat, keywords: seq<string>): Result<(), Exception>
  {
    if positional > |params| then Err(TypeError("too many positional arguments"))
    else if exists k :: k in keywords && k !in params[positional..] then Err(TypeError("unexpected keyword argument"))
    else if exists p :: p in params[positional..] && p !in keywords then Err(TypeError("missing required argument"))
    else Ok(())
  }

  /** The parameters of `create_task`, which has no owner parameter. */
  const CreateTaskParameters: seq<string> := ["db", "payload"]

  /** The parameters of the corrected `create_task`. */
  const OwnedCreateTaskParameters: seq<string> := ["db", "payload", "user_id"]

  /** `create_user_task` as written: `create_task(db, task, user_id=user_id)`
      does not bind, and the TypeError lands in the handler's 500. */
  function CreateUserTask(db: Db, userId: int, payload: TaskCreate, fault: Fault): (r: Step<TaskRead>)
    requires Valid(db)
    ensures r == Step(db, Err(HttpException(InternalServerError, CreateTaskDetail)))
  {
    assert "user_id" !in CreateTaskParameters;
    match BindCall(CreateTaskParameters, 2, ["user_id"])
    case Err(_) => Step(db, Err(HttpException(InternalServerError, CreateTaskDetail)))
    case Ok(_) =>
      // Never taken with these parameters; kept so that the handler reads as
      // the source does, and so that the corrected route differs only in them.
      var s := CreateTask(db, payload, fault);
      match s.result
      case Ok(t) => Step(s.db, Ok(ReadTask(t)))
      case Err(_) => Step(s.db, Err(HttpException(InternalServerError, CreateTaskDetail)))
  }

  /** `create_user_task` against a `create_task` that takes the owner: the
      task is created for the user in the path. */
  function CreateUserTaskFixed(db: Db, userId: int, payload: TaskCreate, fault: Fault): (r: Step<TaskRead>)
    requires Valid(db)
    ensures Valid(r.db) && r.db.users == db.users
    ensures r.result.Ok? <==>
              && (fault == Healthy || fault == FailsOnRead)
              && userId in db.users
              && TaskFits(payload.name, payload.content)
    ensures r.result.Ok? ==> var t := r.result.value;
              && t.userId == userId
              && t.name == Stored(payload.name, TaskNameMax)
              && t.content == payload.content
              && t.id !in db.tasks
              && r.db.tasks == db.tasks[t.id := TaskOfRead(t)]
              && t.createdAt == t.updatedAt
    ensures r.result.Err? ==> r.result.error == HttpException(InternalServerError, CreateTaskDetail)
    ensures r.result.Err? && fault != FailsOnRefresh ==> r.db == db
    ensures fault == FailsOnRefresh && userId in db.users && TaskFits(payload.name, payload.content) ==>
              TaskAdded(db.tasks, r.db.tasks, userId, payload.name, payload.content)
  {
    assert BindCall(OwnedCreateTaskParameters, 2, ["user_id"]).Ok? by {
      assert OwnedCreateTaskParameters[2..] == ["user_id"];
    }
    var s := CreateTaskFor(db, payload, userId, fault);
    match s.result
    case Ok(t) => Step(s.db, Ok(ReadTask(t)))
    case Err(_) => Step(s.db, Err(HttpException(InternalServerError, CreateTaskDetail)))
  }
}

=== FILE: user_schemas.dfy ===
/** The request and response shapes for users: `UserCreate` (active by
    default) and `UserRead`, which extends it with the id and so carries the
    stored password hash. */
module UserSchemas {
  import opened Results
  import opened Models

  /** `UserCreate`: name, email and password are required. */
  datatype UserCreate = UserCreate(name: string, email: string, password: string, isActive: bool)

  /** Building a `UserCreate` from the fields a request supplied. */
  function MakeUserCreate(name: string, email: string, password: string, isActive: Field<bool>): (r: UserCreate)
    ensures r.name == name && r.email == email && r.password == password
    ensures isActive.Unset? ==> r.isActive
    ensures isActive.Set? ==> r.isActive == isActive.value
  {
    UserCreate(name, email, password, isActive.Or(true))
  }

  /** `UserRead`: every field of `UserCreate`, password included, plus the id. */
  datatype UserRead = UserRead(name: string, email: string, password: string, isActive: bool, id: int)

  /** `UserRead.from_orm(user)`: nothing is stripped, so the stored hash is echoed. */
  function ReadUser(u: User): (r: UserRead)
    ensures r.id == u.id && r.name == u.name && r.email == u.email && r.isActive == u.isActive
    ensures r.password == u.password
  {
    UserRead(u.name, u.email, u.password, u.isActive, u.id)
  }

  /** The projection drops no column: the row can be rebuilt from it. */
  function UserOfRead(r: UserRead): (u: User)
    ensures ReadUser(u) == r
  {
    User(r.id, r.name, r.email, r.password, r.isActive)
  }

  function ReadUsers(us: seq<User>): (r: seq<UserRead>)
    ensures |r| == |us|
    ensures forall i :: 0 <= i < |us| ==> r[i] == ReadUser(us[i])
  {
    if us == [] then [] else [ReadUser(us[0])] + ReadUsers(us[1..])
  }
}

=== FILE: user_service.dfy ===
/** The user service: create a user with a hashed password, and list every
    user. Storage errors are rolled back and re-raised for the router. */
module UserService {
  import opened Results
  import opened Errors
  import opened Models
  import opened Tables
  import opened UserSchemas

  /** `create_user(db, user)`: copy the fields, replace the password by its
      hash, insert, commit, refresh. `hash` is `hash_password`. An integrity
      error or any other database error is rolled back and re-raised; a failing
      refresh comes after the COMMIT, so the user stays stored. */
  function CreateUser(db: Db, input: UserCreate, hash: string -> string, fault: Fault): (r: Step<User>)
    requires Valid(db)
    ensures Valid(r.db) && r.db.tasks == db.tasks
    ensures r.result.Ok? <==>
              && (fault == Healthy || fault == FailsOnRead)
              && UserFits(input.name, input.email, hash(input.password))
              && !EmailTaken(db.users, Stored(input.email, UserEmailMax))
    ensures r.result.Ok? ==> var u := r.result.value;
              && u.password == Stored(hash(input.password), UserPasswordMax)
              && u.name == Stored(input.name, UserNameMax)
              && u.email == Stored(input.email, UserEmailMax)
              && u.isActive == input.isActive
              && u.id !in db.users
              && r.db.users == db.users[u.id := u]
              && |r.db.users| == |db.users| + 1
    ensures UserFits(input.name, input.email, hash(input.password)) && EmailTaken(db.users, Stored(input.email, UserEmailMax)) ==>
              r == Step(db, Err(IntegrityError(UniqueViolationMessage)))
    ensures r.result.Err? ==> r.result.error.IntegrityError? || r.result.error.DatabaseError?
    ensures r.result.Err? && r.result.error.IntegrityError? ==>
              UserFits(input.name, input.email, hash(input.password)) && EmailTaken(db.users, Stored(input.email, UserEmailMax))
    ensures r.result.Err? && fault != FailsOnRefresh ==> r.db == db
    ensures fault == FailsOnRefresh && UserFits(input.name, input.email, hash(input.password))
              && !EmailTaken(db.users, Stored(input.email, UserEmailMax)) ==>
              UserAdded(db.users, r.db.users, input.name, input.email, hash(input.password), input.isActive)
  {
    var data := input;
    var row := NewUser(data.name, data.email, hash(data.password), data.isActive);
    var inserted := InsertUser(db, row, fault == FailsOnCommit);
    if inserted.Err? then Step(db, Err(inserted.error))
    else
      var c := inserted.value;
      assert c.db.users.Keys == db.users.Keys + {c.row.id};
      assert UserAdded(db.users, c.db.users, data.name, data.email, hash(data.password), data.isActive);
      if fault == FailsOnRefresh then Step(c.db, Err(DatabaseError(ConnectionLostMessage)))
      else Step(c.db, Ok(c.row))
  }

  /** `get_users(db)`: every stored user, each exactly once. The source leaves
      the order to the database; this model lists them by ascending id. */
  function GetUsers(db: Db, fault: Fault): (r: Result<seq<User>, Exception>)
    requires Valid(db)
    ensures fault == FailsOnRead ==> r == Err(DatabaseError(ConnectionLostMessage))
    ensures fault != FailsOnRead ==> r.Ok?
    ensures r.Ok? ==> |r.value| == |db.users|
    ensures r.Ok? ==> forall i :: 0 <= i < |r.value| ==> r.value[i] in db.users.Values
    ensures r.Ok? ==> forall u :: u in db.users.Values ==> u in r.value
    ensures r.Ok? ==> forall i, j :: 0 <= i < j < |r.value| ==> r.value[i] != r.value[j]
  {
    if fault == FailsOnRead then Err(DatabaseError(ConnectionLostMessage))
    else
      var keys := AscendingKeys(db.users, (u: User) => true, 1, db.nextUserId);
      var rows := RowsAt(db.users, keys);
      ListedOnce(db, keys, rows);
      Ok(rows)
  }

  /** The rows under the ascending scan of all user keys are every stored user, once each. */
  lemma ListedOnce(db: Db, keys: seq<int>, rows: seq<User>)
    requires Valid(db)
    requires forall i :: 0 <= i < |keys| ==> keys[i] in db.users
    requires forall i, j :: 0 <= i < j < |keys| ==> keys[i] < keys[j]
    requires forall k :: k in db.users && 1 <= k < db.nextUserId ==> k in keys
    requires |rows| == |keys| && forall i :: 0 <= i < |keys| ==> rows[i] == db.users[keys[i]]
    ensures |rows| == |db.users|
    ensures forall i :: 0 <= i < |rows| ==> rows[i] in db.users.Values
    ensures forall u :: u in db.users.Values ==> u in rows
    ensures forall i, j :: 0 <= i < j < |rows| ==> rows[i] != rows[j]
  {
    assert forall i :: 0 <= i < |keys| ==> rows[i].id == keys[i] by {
      forall i | 0 <= i < |keys| ensures rows[i].id == keys[i] {
        assert UserRowOk(db, keys[i]);
      }
    }
    assert (set k | k in keys) == db.users.Keys by {
      forall k | k in db.users ensures k in keys {
        assert UserRowOk(db, k);
      }
    }
    AscendingCount(keys);
    forall u | u in db.users.Values ensures u in rows {
      var k :| k in db.users && db.users[k] == u;
      assert UserRowOk(db, k);
      var i :| 0 <= i < |keys| && keys[i] == k;
      assert rows[i] == u;
    }
  }

  /** A clash on the email, as the column stores it, fails, and the number of
      users is unchanged. */
  lemma DuplicateEmailKeepsCount(db: Db, input: UserCreate, hash: string -> string, fault: Fault)
    requires Valid(db)
    requires UserFits(input.name, input.email, hash(input.password))
    requires exists id :: id in db.users && db.users[id].email == Stored(input.email, UserEmailMax)
    ensures var r := CreateUser(db, input, hash, fault);
            r.result.Err? && r.result.error.IntegrityError? && |r.db.users| == |db.users|
  {
  }

  /** No stored email repeats, whatever sequence of creations produced the store. */
  lemma CreatedEmailsStayUnique(db: Db, input: UserCreate, hash: string -> string, fault: Fault)
    requires Valid(db)
    ensures EmailsUnique(CreateUser(db, input, hash, fault).db.users)
  {
  }
}
